=== FILE: README.md ===
# DotLiquid standard filters, modelled in Dafny

This project models the pure, sequential filters of DotLiquid's
`StandardFilters` class, which templates apply to their values:

- `size`, `first` and `last`;
- `truncate`, `truncatewords`, `join`, `remove`, `append` and `prepend`;
- `sort` and `map`, which read a named property through duck typing;
- `plus`, `minus`, `times` and `divided_by`, which hand non-string operands to
  a compiled arithmetic expression.

Values are an immutable `Value` datatype (`Values` module). The constructors
are null, characters, strings, ints, lists, dictionaries (entries in
enumeration order), key/value pairs and opaque objects. Several parts of the
.NET runtime are not defined here. The model receives them as fields of a
`Runtime` value and treats them as uninterpreted functions:

- `RespondTo` and `Send` (reading a member by name);
- `Flatten`;
- the default comparer, as a less-or-equal test;
- `ToString` of objects that are not strings, characters or ints;
- the result of the compiled arithmetic.

The project has four modules:

- `Text` holds the base-library string operations the filters use:
  `Split(char)`, `String.Join`, ordinal `Replace` and `Char.IsWhiteSpace`. It
  also proves that splitting and joining undo each other.
- `Ordering` holds an insertion sort. It is proved to return a permutation
  that is ordered whenever the comparer is a total preorder.
- `StandardFilters` holds the filters themselves, one function each.
- `Values` holds the value datatype and the runtime record.

Behaviour worth knowing, modelled as the code does it:

- A list of dictionaries is sorted or mapped by key as soon as all elements
  are dictionaries and the *first* one has the key. Later dictionaries without
  the key are read as null through the indexer. The list is not passed through
  unchanged.
- `sort` with a property but neither kind of access returns the flattened list
  unsorted. No stability is claimed, because `List.Sort` is not stable.
- `times` on a string and an int yields a list of copies, not one joined string.
- `remove` is an ordinal, non-regex replace-all. A null string, and a string
  made only of white space, are returned untouched whatever the pattern.
- `truncatewords` splits on single spaces, so consecutive spaces produce empty
  words. Its cut point is the position of the `words`-th space.

## Model

| member | source | states |
|---|---|---|
| `Values.ToText` | src/DotLiquid/StandardFilters.cs:365 | the text `string.Concat` (and, per element, `string.Join` at line 149) takes from a value: "" for null, a character as itself, a string as itself, an int in canonical decimal form (at least one digit, no leading zero, digits denoting its value, a leading "-" for negatives), and the runtime's `ToString` for everything else |
| `Values.NatToString` | src/DotLiquid/StandardFilters.cs:365 | the decimal form of a natural number is a non-empty string of digits, without a leading zero, that denotes exactly that number |
| `Values.IntToString` | src/DotLiquid/StandardFilters.cs:365 | `int.ToString()`: a non-negative int gives non-empty digits without a leading zero that denote it; a negative int gives "-" followed by such digits for its absolute value |
| `Values.Lookup` | src/DotLiquid/StandardFilters.cs:191-192 | the `IDictionary` indexer: when the key is present the result is a value stored under it; when it is absent, or the value is not a dictionary, the result is null |
| `StandardFilters.Flattened` | src/DotLiquid/StandardFilters.cs:162-165 | an enumerable input is flattened by the runtime's `Flatten`; any other input, null included, becomes the one-element list of itself |
| `StandardFilters.Size` | src/DotLiquid/StandardFilters.cs:20-27 | a string gives its length and any enumerable its number of enumerated elements; null, ints and every other value give 0 |
| `Values.Enumerate` | src/DotLiquid/StandardFilters.cs:24-25 | enumerating a list yields its elements, a string its characters in order, and a dictionary one key/value pair per entry |
| `StandardFilters.Truncate` | src/DotLiquid/StandardFilters.cs:93-103 | null, empty and strings of at most `length` characters are returned unchanged; a longer string becomes a prefix of itself followed by the suffix, exactly `length` long when `length >= |suffix|` and exactly the suffix otherwise |
| `StandardFilters.TruncateAsWritten` | src/DotLiquid/StandardFilters.cs:93-103 | the C# with 32-bit wrap-around of `length - truncateString.Length` and the `Substring` range check: it throws exactly when the input is longer than `length` and the wrapped cut point lies beyond its end; a short, null or empty input comes back unchanged; when it returns after cutting, the result ends in the full suffix |
| `StandardFilters.TruncateAsWrittenThrows` | src/DotLiquid/StandardFilters.cs:98-101 | with `length` = -2147483648 and suffix "...", the code as written throws on "a" where the intended result is "..." |
| `StandardFilters.TruncateAsWrittenAgrees` | src/DotLiquid/StandardFilters.cs:98-101 | when the subtraction does not overflow, the code as written returns exactly what `Truncate` returns |
| `StandardFilters.Wrap32` | src/DotLiquid/StandardFilters.cs:98 | the wrapped difference is always a C# int, congruent to the exact difference modulo 2^32 (two's-complement wrap, not saturation), and an in-range difference is left alone |
| `StandardFilters.TruncateWords` | src/DotLiquid/StandardFilters.cs:105-116 | null or empty input is unchanged; with at most `words` fields the input is unchanged; a count of 0 or less gives just the suffix; otherwise the result is the input up to its `words`-th space, followed by the suffix |
| `StandardFilters.TruncateWordsKeepsFields` | src/DotLiquid/StandardFilters.cs:110-114 | a truncated result is a prefix ending before a space, holding exactly `words` space-separated fields, followed by the suffix |
| `Text.Split` | src/DotLiquid/StandardFilters.cs:110 | splitting on a character gives one more field than there are separators, and no field contains the separator |
| `Text.SepIndex` | src/DotLiquid/StandardFilters.cs:111-114 | the `n`-th separator lies at the returned index, with exactly `n - 1` separators before it |
| `Text.JoinSplit` | src/DotLiquid/StandardFilters.cs:110-114 | rejoining the fields of a split with the separator gives back the original string |
| `Text.SplitJoin` | src/DotLiquid/StandardFilters.cs:143-150 | splitting a join of separator-free fields on the separator gives back the fields |
| `Text.JoinTakeSplit` | src/DotLiquid/StandardFilters.cs:113-114 | the first `n` fields, rejoined with the separator, equal the string before its `n`-th separator |
| `StandardFilters.Join` | src/DotLiquid/StandardFilters.cs:143-150 | null gives null; an empty enumerable gives ""; otherwise element `k`'s text sits at `PartStart(k)` (the total length of the earlier texts plus one glue for each), exactly one glue follows every element but the last, and the length is the texts' total plus one glue per neighbouring pair, so the contents are fixed |
| `Text.JoinWithParts` | src/DotLiquid/StandardFilters.cs:149 | in `String.Join`, every part `k` sits at `PartStart(k)`, followed by one glue unless it is the last |
| `StandardFilters.JoinThenSplit` | src/DotLiquid/StandardFilters.cs:143-150 | splitting a join on its one-character glue recovers the element texts, provided no text contains the glue |
| `StandardFilters.DefaultArguments` | src/DotLiquid/StandardFilters.cs:93-143 | with the default arguments, `truncate` cuts a string longer than 50 characters to 50 ending in "...", `truncatewords` leaves a string of at most 15 words alone, and joining "a" and "b" with the default glue gives "a b" |
| `StandardFilters.JoinExamples` | src/DotLiquid/StandardFilters.cs:143-150 | the ints 1, 2, 3 joined with "-" give "1-2-3", and joining null gives null |
| `StandardFilters.ChooseAccess` | src/DotLiquid/StandardFilters.cs:171-173 | dictionary access is chosen iff every element is a dictionary and the first has the key; member access iff that fails and every element responds; otherwise neither |
| `StandardFilters.Sort` | src/DotLiquid/StandardFilters.cs:159-177 | the result is always a permutation of the flattened input. Under a total-preorder comparer it is ordered by the elements with no property, by `dict[property]` (missing reads as null) under dictionary access, and by the member's value under member access. Otherwise it is the flattened input unchanged |
| `StandardFilters.SortSingle` | src/DotLiquid/StandardFilters.cs:164-165 | a value that is not enumerable sorts to the one-element list of itself |
| `StandardFilters.SortEmpty` | src/DotLiquid/StandardFilters.cs:166-167 | an input that flattens to nothing sorts to the empty list |
| `StandardFilters.SortByKeyExample` | src/DotLiquid/StandardFilters.cs:171-172 | assuming `Flatten` returns a flat list of dictionaries unchanged, and with the default comparer on ints and null, the dictionaries {a:3}, {a:1}, {a:2} sorted on "a" come out as {a:1}, {a:2}, {a:3} |
| `StandardFilters.SortMixedDictsExample` | src/DotLiquid/StandardFilters.cs:171-172 | assuming `Flatten` returns a flat list of dictionaries unchanged, {a:3}, {b:1} sorted on "a" give {b:1}, {a:3}: the first dictionary has the key, so the second is read as null and sorts first, and the input order is not kept |
| `StandardFilters.SortFirstLastBound` | src/DotLiquid/StandardFilters.cs:169-170 | after a sort without a property, `first` is below and `last` is above every element of the flattened input |
| `Ordering.InsertionSort` | src/DotLiquid/StandardFilters.cs:170-174 | the sorted list is a permutation of its input, ordered by key whenever the comparer is a total preorder |
| `StandardFilters.Map` | src/DotLiquid/StandardFilters.cs:185-197 | the output has the input's length and order. Each element is replaced by `dict[property]` under dictionary access, by the member's value under member access, and otherwise kept |
| `StandardFilters.MapMissingKeyIsNull` | src/DotLiquid/StandardFilters.cs:191-192 | when the first dictionary has the key, a later dictionary without it maps to null |
| `StandardFilters.MapExamples` | src/DotLiquid/StandardFilters.cs:185-197 | mapping [{a:1},{a:2}] on "a" gives [1,2]; mapping [{b:1}] on "a" returns the list unchanged when dictionaries do not respond to "a" |
| `StandardFilters.Remove` | src/DotLiquid/StandardFilters.cs:245-250 | null and all-white-space strings are unchanged, whatever the pattern. Otherwise the result is no longer than the input and differs from it exactly when the pattern occurs; when the leftmost occurrence is at `i`, the result is the text before it followed by the removal applied to the text after it, so every occurrence goes, not only the first |
| `Text.ReplaceAllFirst` | src/DotLiquid/StandardFilters.cs:249 | ordinal replace-all keeps the text before the leftmost occurrence, replaces that occurrence, and resumes right after it |
| `Text.RemoveAllChangesIff` | src/DotLiquid/StandardFilters.cs:249 | removing every occurrence of a non-empty pattern changes the string iff the pattern occurs |
| `StandardFilters.Append` | src/DotLiquid/StandardFilters.cs:271-276 | null stays null; otherwise the result is the input followed by the (possibly null, then empty) operand |
| `StandardFilters.Prepend` | src/DotLiquid/StandardFilters.cs:284-289 | null stays null; otherwise the result is the (possibly null, then empty) operand followed by the input |
| `StandardFilters.AppendPrependCommute` | src/DotLiquid/StandardFilters.cs:271-289 | appending and prepending commute |
| `StandardFilters.First` | src/DotLiquid/StandardFilters.cs:332-338 | null or an empty enumerable gives null; otherwise the first enumerated element |
| `StandardFilters.Last` | src/DotLiquid/StandardFilters.cs:348-354 | null or an empty enumerable gives null; otherwise the last enumerated element |
| `StandardFilters.DoMathsOperation` | src/DotLiquid/StandardFilters.cs:404-410 | a null on either side gives null; two non-null operands give the runtime's result for the requested operator |
| `StandardFilters.Plus` | src/DotLiquid/StandardFilters.cs:362-367 | a string input is concatenated with the operand's text (a null operand adds nothing); any other input is added arithmetically |
| `StandardFilters.Minus` | src/DotLiquid/StandardFilters.cs:375-378 | null when either side is null; otherwise the runtime's subtraction of the two operands |
| `StandardFilters.Times` | src/DotLiquid/StandardFilters.cs:386-391 | a string times an int `n` is a list of exactly `n` copies of the string; every other pair is multiplied arithmetically |
| `StandardFilters.DividedBy` | src/DotLiquid/StandardFilters.cs:399-402 | null when either side is null; otherwise the runtime's division of the two operands |
| `StandardFilters.ArithmeticNullPropagates` | src/DotLiquid/StandardFilters.cs:404-407 | `plus`, `minus`, `times` and `divided_by` give null when either operand is null, except `plus` on a string input (`times(null, n)` is null too) |
| `StandardFilters.PlusStringExamples` | src/DotLiquid/StandardFilters.cs:362-367 | "foo" plus "bar" is "foobar", "foo" plus 1 is "foo1", and a string plus null is the string |
| `StandardFilters.TimesJoinRepeats` | src/DotLiquid/StandardFilters.cs:386-391 | joining the copies `times` returns, with no glue, spells out the string repeated `n` times |

## Left out

- `Downcase`, `Upcase`, `Capitalize`: they depend on culture-specific casing and title-casing tables.
- `Escape` and `H`: they depend on `HttpUtility.HtmlEncode`.
- `Date`: it depends on `DateTime.TryParse` and .NET date formatting.
- `StripHtml`, `StripNewlines`, `NewlineToBr`, `Replace`, `ReplaceFirst`, `RemoveFirst`: they run the regular-expression engine and read the platform's `Environment.NewLine`.
- Numeric promotion in `DoMathsOperation`: the expression tree comes from `ExpressionUtility.CreateExpression`, which is not part of this model. The result for two non-null operands is the uninterpreted `Runtime.arith`. Nothing is claimed about integer versus floating-point results, division, or the exception for non-numeric operands.
- `Flatten`, `RespondTo`, `Send`: these utility extensions are not part of this model. They are uninterpreted `Runtime` fields, and no flattening depth is assumed.
- `StandardFilters.Sort`: order is claimed only when the comparer is a total preorder. `Comparer.Default` throwing on values it cannot compare is not modelled, and neither is stability, because `List.Sort` is unstable. An insertion sort stands in for `List.Sort`'s introsort; only result properties that every correct sort shares are stated.
- `StandardFilters.Map`: a null input throws in the source, so the function requires an enumerable input. The property is a `string` that cannot be null; in the source a null property reaches `IDictionary.Contains(null)` and throws for a list of dictionaries, and that exception is not modelled.
- `StandardFilters.Times`: a string times a negative int throws in `Enumerable.Repeat`, so that case is excluded by a precondition.
- `StandardFilters.Remove`: an empty pattern throws in `String.Replace`, so a non-empty pattern is required, but only when the input is neither null nor all white space; those inputs are returned before `Replace` runs, whatever the pattern. A null pattern also throws in `Replace`; the model's `string` parameter cannot be null, so that exception is not modelled.
- `StandardFilters.Truncate`: a null suffix throws at `truncateString.Length`, but only after a null or empty input has been returned unchanged. The model's `string` parameter cannot be null, so that exception is not modelled.
- Dictionaries: `Dict` is a list of entries and may repeat a key, which no `IDictionary` does. `Lookup` reads the first entry, and `Size` and `Enumerate` count every entry, so duplicate keys are an over-approximation that real inputs never reach. Keys are strings only: a dictionary keyed by other types (a `Hashtable` keyed by ints, say) cannot be represented, and an `Obj` does not stand in for it. In the source such a dictionary is enumerable, so `size`, `first`, `last` and `join` see its entries, where an `Obj` has size 0 and cannot be passed to the latter three. It also counts as an `IDictionary` in `sort` and `map`, so a list whose first dictionary has the key takes dictionary access and reads it as null; with an `Obj` in its place that list is not `Keyed`.
- Lazy sequences: the `Select` results of `map` and the `Repeat` result of `times` are modelled as finished lists.
- Text encoding: strings are sequences of Unicode scalar values, while .NET strings are UTF-16 code units, so a character outside the Basic Multilingual Plane counts as 1 here and 2 in .NET.
- `Text.IsWhiteSpace` follows the current Unicode tables. U+180E, white space under older runtimes, is not included.
- Values: booleans, other numeric kinds (`long`, `double`, `decimal`) and dates are opaque objects. `Int` stands for a C# `int`, but its range is not bounded except where `truncate` overflows.
- `Values.ToText`: the text of an int assumes a culture whose negative sign is "-". The text of other objects is the uninterpreted `Runtime.show`.

## Findings

| source | as written | input that shows it | evidently intended | confidence | as-written member | corrected member |
|---|---|---|---|---|---|---|
| src/DotLiquid/StandardFilters.cs:98-101 | `length - truncateString.Length` is computed in 32-bit arithmetic and wraps around for lengths near the smallest int, so the clamp at 0 is skipped and `Substring` is asked for more characters than exist | `truncate` of "a" with length -2147483648 and suffix "..." (the difference wraps to 2147483645) | a negative cut point is clamped to 0 and the result is just the suffix, "..." | not executed; medium | `StandardFilters.TruncateAsWritten` | `StandardFilters.Truncate` |

=== FILE: filters.dfy ===
/**
  The pure filters of DotLiquid's `StandardFilters` class: sizes, string
  truncation, joining, sorting and mapping by a duck-typed property,
  substring removal, appending and prepending, first and last elements,
  and the null-propagating arithmetic dispatch.
 */
module StandardFilters {
  import opened Values
  import opened Text
  import opened Ordering

  const Int32Min: int := -0x8000_0000
  const Int32Max: int := 0x7FFF_FFFF

  /** The default arguments: `truncate` keeps 50 characters, `truncatewords` 15 words, both mark the cut with "...", and `join` glues with one space. */
  const DefaultLength: int := 50
  const DefaultWords: int := 15
  const DefaultSuffix: string := "..."
  const DefaultGlue: string := " "

  /** A C# `int`. */
  predicate IsInt32(x: int) {
    Int32Min <= x <= Int32Max
  }

  /** `string.IsNullOrEmpty`. */
  predicate NullOrEmpty(s: Option<string>) {
    s.None? || s.value == ""
  }

  /** The text a possibly null string contributes to a concatenation. */
  function OrEmpty(s: Option<string>): string {
    if s.None? then "" else s.value
  }

  // ---------------------------------------------------------------------
  // size
  // ---------------------------------------------------------------------

  /** The length of a string, the number of elements of anything enumerable, and 0 for everything else. */
  function Size(input: Value): (n: nat)
    ensures IsEnumerable(input) ==> n == |Enumerate(input)|
    ensures !IsEnumerable(input) ==> n == 0
  {
    match input
    case Str(s) => |s|
    case Seq(items) => |items|
    case Dict(entries) => |entries|
    case _ => 0
  }

  // ---------------------------------------------------------------------
  // truncate and truncatewords
  // ---------------------------------------------------------------------

  /**
    Cuts a string longer than `length` so that, with `suffix` appended, it is
    `length` characters long; when the suffix alone is longer than that, the
    result is just the suffix. Null, empty and short strings pass through.
   */
  function Truncate(input: Option<string>, length: int, suffix: string): (r: Option<string>)
    ensures NullOrEmpty(input) || |input.value| <= length ==> r == input
    ensures !NullOrEmpty(input) && |input.value| > length ==>
      && r.Some?
      && |suffix| <= |r.value|
      && |r.value| - |suffix| < |input.value|
      && r.value[|r.value| - |suffix|..] == suffix
      && r.value[..|r.value| - |suffix|] == input.value[..|r.value| - |suffix|]
      && (length >= |suffix| ==> |r.value| == length)
      && (length < |suffix| ==> r.value == suffix)
  {
    if NullOrEmpty(input) then input
    else
      var s := input.value;
      var l := length - |suffix|;
      if |s| > length then Some(s[..if l < 0 then 0 else l] + suffix) else input
  }

  /** Two's-complement wrap-around of a C# `int` subtraction result. */
  function Wrap32(x: int): (w: int)
    ensures IsInt32(w)
    ensures (x - w) % 0x1_0000_0000 == 0
    ensures IsInt32(x) ==> w == x
  {
    (x - Int32Min) % 0x1_0000_0000 + Int32Min
  }

  /**
    `Truncate` exactly as the C# computes it: `length - truncateString.Length`
    wraps around on 32-bit overflow, and `Substring` throws when the cut
    point lies beyond the end of the string.
   */
  function TruncateAsWritten(input: Option<string>, length: int, suffix: string): (r: Result<Option<string>>)
    requires IsInt32(length) && |suffix| <= Int32Max
    ensures r.ArgumentOutOfRange? <==>
      !NullOrEmpty(input) && |input.value| > length && Wrap32(length - |suffix|) > |input.value|
    ensures r.Ok? && (NullOrEmpty(input) || |input.value| <= length) ==> r.value == input
    ensures r.Ok? && !NullOrEmpty(input) && |input.value| > length ==>
      && r.value.Some?
      && |suffix| <= |r.value.value|
      && r.value.value[|r.value.value| - |suffix|..] == suffix
  {
    if NullOrEmpty(input) then Ok(input)
    else
      var s := input.value;
      var l := Wrap32(length - |suffix|);
      if |s| > length then
        var cut := if l < 0 then 0 else l;
        if cut > |s| then ArgumentOutOfRange else Ok(Some(s[..cut] + suffix))
      else Ok(input)
  }

  /** Whenever the subtraction does not overflow, the code as written computes `Truncate`. */
  lemma TruncateAsWrittenAgrees(input: Option<string>, length: int, suffix: string)
    requires IsInt32(length) && |suffix| <= Int32Max
    requires length - |suffix| >= Int32Min
    ensures TruncateAsWritten(input, length, suffix) == Ok(Truncate(input, length, suffix))
  {
  }

  /** With the smallest `int` as length the cut point wraps to a huge positive index and `Substring` throws. */
  lemma TruncateAsWrittenThrows()
    ensures TruncateAsWritten(Some("a"), Int32Min, "...") == ArgumentOutOfRange
    ensures Truncate(Some("a"), Int32Min, "...") == Some("...")
  {
  }

  /**
    Keeps the first `words` space-separated fields (a negative count keeps
    none) and appends `suffix` when fields were dropped; otherwise, and for
    null or empty input, the input is returned.
   */
  function TruncateWords(input: Option<string>, words: int, suffix: Option<string>): (r: Option<string>)
    ensures NullOrEmpty(input) ==> r == input
    ensures !NullOrEmpty(input) && Occurrences(input.value, ' ') < words ==> r == input
    ensures !NullOrEmpty(input) && words <= 0 ==> r == Some(OrEmpty(suffix))
    ensures !NullOrEmpty(input) && 1 <= words <= Occurrences(input.value, ' ') ==>
      r == Some(input.value[..SepIndex(input.value, ' ', words)] + OrEmpty(suffix))
  {
    if NullOrEmpty(input) then input
    else
      var wordList := Split(input.value, ' ');
      var l := if words < 0 then 0 else words;
      if |wordList| > l then
        var kept := JoinWith(" ", wordList[..l]);
        assert l >= 1 ==> kept == input.value[..SepIndex(input.value, ' ', l)] by {
          if l >= 1 {
            JoinTakeSplit(input.value, ' ', l);
          }
        }
        assert l == 0 ==> kept + OrEmpty(suffix) == OrEmpty(suffix);
        Some(kept + OrEmpty(suffix))
      else input
  }

  /** A truncated result keeps exactly `words` fields in front of the suffix. */
  lemma TruncateWordsKeepsFields(s: string, words: int, suffix: Option<string>)
    requires s != ""
    requires 1 <= words <= Occurrences(s, ' ')
    ensures exists k ::
      && 0 <= k < |s| && s[k] == ' '
      && TruncateWords(Some(s), words, suffix) == Some(s[..k] + OrEmpty(suffix))
      && |Split(s[..k], ' ')| == words
  {
  }

  // ---------------------------------------------------------------------
  // join
  // ---------------------------------------------------------------------

  /** The texts of a list of values, in order. */
  function Texts(rt: Runtime, xs: seq<Value>): (ts: seq<string>)
    ensures |ts| == |xs|
  {
    seq(|xs|, i requires 0 <= i < |xs| => ToText(rt, xs[i]))
  }

  /**
    The texts of the elements separated by `glue` (a null glue is empty);
    null for null input. The texts are laid out in order with one glue
    between neighbours, and nothing else is in the result.
   */
  function Join(input: Value, glue: Option<string>, rt: Runtime): (r: Option<string>)
    requires input.Null? || IsEnumerable(input)
    ensures input.Null? <==> r.None?
    ensures IsEnumerable(input) && |Enumerate(input)| >= 1 ==>
      |r.value| == TotalLength(Texts(rt, Enumerate(input))) + (|Enumerate(input)| - 1) * |OrEmpty(glue)|
    ensures IsEnumerable(input) && |Enumerate(input)| == 0 ==> r == Some("")
    ensures IsEnumerable(input) ==> LaidOut(r.value, OrEmpty(glue), Texts(rt, Enumerate(input)))
  {
    if input.Null? then None
    else
      var ts := Texts(rt, Enumerate(input));
      JoinWithParts(OrEmpty(glue), ts);
      if |ts| >= 1 then JoinWithLength(OrEmpty(glue), ts); Some(JoinWith(OrEmpty(glue), ts))
      else Some(JoinWith(OrEmpty(glue), ts))
  }

  /** Splitting a join on its one-character glue recovers the element texts when none of them contains the glue. */
  lemma JoinThenSplit(input: Value, c: char, rt: Runtime)
    requires IsEnumerable(input) && |Enumerate(input)| >= 1
    requires forall i :: 0 <= i < |Enumerate(input)| ==> c !in ToText(rt, Enumerate(input)[i])
    ensures Split(Join(input, Some([c]), rt).value, c) == Texts(rt, Enumerate(input))
  {
    SplitJoin(Texts(rt, Enumerate(input)), c);
  }

  /** `join` of the ints 1, 2, 3 with "-" is "1-2-3"; `join` of null is null. */
  lemma JoinExamples(rt: Runtime)
    ensures Join(Seq([Int(1), Int(2), Int(3)]), Some("-"), rt) == Some("1-2-3")
    ensures Join(Null, Some("-"), rt) == None
  {
    var ts := Texts(rt, [Int(1), Int(2), Int(3)]);
    assert IntToString(1) == "1" && IntToString(2) == "2" && IntToString(3) == "3";
    assert ts == ["1", "2", "3"];
    assert JoinWith("-", ["3"]) == "3";
    assert JoinWith("-", ["2", "3"]) == "2-3";
    assert JoinWith("-", ts) == "1-2-3";
  }

  /**
    Called with their default arguments, `truncate` cuts a long string to 50
    characters ending in "...", `truncatewords` leaves a string of at most 15
    words alone, and `join` puts one space between the elements.
   */
  lemma DefaultArguments(s: string, rt: Runtime)
    ensures |s| > DefaultLength ==>
      && |Truncate(Some(s), DefaultLength, DefaultSuffix).value| == DefaultLength
      && Truncate(Some(s), DefaultLength, DefaultSuffix).value[DefaultLength - |DefaultSuffix|..] == DefaultSuffix
    ensures Occurrences(s, ' ') < DefaultWords ==> TruncateWords(Some(s), DefaultWords, Some(DefaultSuffix)) == Some(s)
    ensures Join(Seq([Str("a"), Str("b")]), Some(DefaultGlue), rt) == Some("a b")
  {
    var ts := Texts(rt, [Str("a"), Str("b")]);
    assert ts == ["a", "b"];
    assert JoinWith(" ", ["b"]) == "b";
    assert JoinWith(DefaultGlue, ts) == "a b";
  }

  // ---------------------------------------------------------------------
  // sort and map: duck-typed property access
  // ---------------------------------------------------------------------

  /** How a call reads the property of each element. */
  datatype Access = Natural | ByKey | ByMember | AsIs

  /** A property was given: neither null nor empty. */
  predicate Named(property: Option<string>) {
    property.Some? && property.value != ""
  }

  /** Every element is a dictionary. */
  predicate AllDicts(ary: seq<Value>) {
    forall i :: 0 <= i < |ary| ==> ary[i].Dict?
  }

  /** Dictionary access applies: all elements are dictionaries and the first one has the key. */
  predicate Keyed(ary: seq<Value>, property: string) {
    |ary| > 0 && AllDicts(ary) && HasKey(ary[0], property)
  }

  /** Every element responds to the property as a member. */
  predicate AllRespond(ary: seq<Value>, property: string, rt: Runtime) {
    forall i :: 0 <= i < |ary| ==> rt.respondTo(ary[i], property)
  }

  /** The access both `sort` and `map` choose once per call, dictionaries first. */
  function ChooseAccess(ary: seq<Value>, property: string, rt: Runtime): (a: Access)
    ensures a != Natural
    ensures a == ByKey <==> Keyed(ary, property)
    ensures a == ByMember <==> !Keyed(ary, property) && AllRespond(ary, property, rt)
  {
    if Keyed(ary, property) then ByKey
    else if AllRespond(ary, property, rt) then ByMember
    else AsIs
  }

  /** What an element is compared or projected by under an access. */
  function Read(a: Access, property: string, rt: Runtime, v: Value): Value {
    match a
    case ByKey => Lookup(v, property)
    case ByMember => rt.send(v, property)
    case _ => v
  }

  /** The list `sort` works on: the flattened input, or the input alone when it is not enumerable. */
  function Flattened(input: Value, rt: Runtime): (ary: seq<Value>)
    ensures IsEnumerable(input) ==> ary == rt.flatten(input)
    ensures !IsEnumerable(input) ==> ary == [input]
  {
    if IsEnumerable(input) then rt.flatten(input) else [input]
  }

  /**
    Sorts the flattened input: by the elements themselves when no property
    is given, by `dict[property]` when dictionary access applies, by the
    member's value when member access applies, and not at all otherwise.
    The result is always a permutation of the flattened input, and it is
    ordered whenever the comparer is a total preorder.
   */
  function Sort(input: Value, property: Option<string>, rt: Runtime): (r: Value)
    ensures r.Seq?
    ensures multiset(r.items) == multiset(Flattened(input, rt))
    ensures !Named(property) && TotalPreorder(rt.le) ==>
      forall i, j :: 0 <= i < j < |r.items| ==> rt.le(r.items[i], r.items[j])
    ensures Named(property) && Keyed(Flattened(input, rt), property.value) && TotalPreorder(rt.le) ==>
      forall i, j :: 0 <= i < j < |r.items| ==>
        rt.le(Lookup(r.items[i], property.value), Lookup(r.items[j], property.value))
    ensures Named(property) && !Keyed(Flattened(input, rt), property.value)
              && AllRespond(Flattened(input, rt), property.value, rt) && TotalPreorder(rt.le) ==>
      forall i, j :: 0 <= i < j < |r.items| ==>
        rt.le(rt.send(r.items[i], property.value), rt.send(r.items[j], property.value))
    ensures Named(property) && !Keyed(Flattened(input, rt), property.value)
              && !AllRespond(Flattened(input, rt), property.value, rt) ==>
      r.items == Flattened(input, rt)
  {
    var ary := Flattened(input, rt);
    if |ary| == 0 then Seq(ary)
    else
      var p := if Named(property) then property.value else "";
      var a := if Named(property) then ChooseAccess(ary, p, rt) else Natural;
      if a == AsIs then Seq(ary)
      else
        var sorted := InsertionSort(ary, (v: Value) => Read(a, p, rt, v), rt.le);
        SortedByRead(sorted, a, p, rt);
        Seq(sorted)
  }

  /** Being sorted on the access's key is being ordered by what the access reads. */
  lemma SortedByRead(xs: seq<Value>, a: Access, p: string, rt: Runtime)
    ensures SortedOn(xs, (v: Value) => Read(a, p, rt, v), rt.le) ==>
      forall i, j :: 0 <= i < j < |xs| ==> rt.le(Read(a, p, rt, xs[i]), Read(a, p, rt, xs[j]))
  {
  }

  /** An input that is not enumerable sorts to a one-element list of itself. */
  lemma SortSingle(x: Value, property: Option<string>, rt: Runtime)
    requires !IsEnumerable(x)
    ensures Sort(x, property, rt) == Seq([x])
  {
  }

  /** Flattening to nothing sorts to the empty list. */
  lemma SortEmpty(input: Value, property: Option<string>, rt: Runtime)
    requires |Flattened(input, rt)| == 0
    ensures Sort(input, property, rt) == Seq([])
  {
  }

  /**
    The default comparer as it behaves on ints and null: null sorts before
    everything and ints by value. `Comparer.Default` throws on other mixes
    (an int against a string, say); ranking every other value as 0 is only
    this example's choice, to make the relation total.
   */
  predicate NullsFirst(x: Value, y: Value) {
    x.Null? || (!y.Null? && IntRank(x) <= IntRank(y))
  }

  /** The number an int stands for; 0 for any other value. */
  function IntRank(v: Value): int {
    if v.Int? then v.i else 0
  }

  /** A dictionary with the single entry `key: n`. */
  function Row(key: string, n: int): Value {
    Dict([Entry(key, Int(n))])
  }

  /** Ordering nulls first and ints by value is a total preorder. */
  lemma NullsFirstIsTotalPreorder(rt: Runtime)
    requires forall x, y :: rt.le(x, y) == NullsFirst(x, y)
    ensures TotalPreorder(rt.le)
  {
  }

  /** Sorting a list of dictionaries by a key the first one has, under the nulls-first comparer. */
  lemma SortByKeyNullsFirst(input: Value, key: string, rt: Runtime)
    requires input.Seq? && rt.flatten(input) == input.items
    requires key != "" && Keyed(input.items, key)
    requires forall x, y :: rt.le(x, y) == NullsFirst(x, y)
    ensures multiset(Sort(input, Some(key), rt).items) == multiset(input.items)
    ensures forall i, j :: 0 <= i < j < |Sort(input, Some(key), rt).items| ==>
      NullsFirst(Lookup(Sort(input, Some(key), rt).items[i], key), Lookup(Sort(input, Some(key), rt).items[j], key))
  {
    NullsFirstIsTotalPreorder(rt);
  }

  /** The only ordering of the rows 3, 1, 2 under "a" that is ascending in the key is 1, 2, 3. */
  lemma PinThreeRows(r: seq<Value>)
    requires multiset(r) == multiset{Row("a", 3), Row("a", 1), Row("a", 2)}
    requires forall i, j :: 0 <= i < j < |r| ==> NullsFirst(Lookup(r[i], "a"), Lookup(r[j], "a"))
    ensures r == [Row("a", 1), Row("a", 2), Row("a", 3)]
  {
    assert |r| == 3 by { assert |multiset(r)| == 3; }
    forall i | 0 <= i < 3 ensures r[i] in {Row("a", 1), Row("a", 2), Row("a", 3)} {
      assert r[i] in multiset(r);
    }
    assert Lookup(Row("a", 1), "a") == Int(1);
    assert Lookup(Row("a", 2), "a") == Int(2);
    assert Lookup(Row("a", 3), "a") == Int(3);
    assert NullsFirst(Lookup(r[0], "a"), Lookup(r[1], "a"));
    assert NullsFirst(Lookup(r[1], "a"), Lookup(r[2], "a"));
  }

  /**
    With the default comparer on ints, dictionaries holding 3, 1 and 2 under
    "a" sort to the order 1, 2, 3.
   */
  lemma SortByKeyExample(rt: Runtime)
    requires rt.flatten(Seq([Row("a", 3), Row("a", 1), Row("a", 2)])) == [Row("a", 3), Row("a", 1), Row("a", 2)]
    requires forall x, y :: rt.le(x, y) == NullsFirst(x, y)
    ensures Sort(Seq([Row("a", 3), Row("a", 1), Row("a", 2)]), Some("a"), rt) == Seq([Row("a", 1), Row("a", 2), Row("a", 3)])
  {
    var ary := [Row("a", 3), Row("a", 1), Row("a", 2)];
    NullsFirstIsTotalPreorder(rt);
    assert Keyed(ary, "a") by { assert ary[0].entries[0].key == "a"; }
    SortByKeyNullsFirst(Seq(ary), "a", rt);
    PinThreeRows(Sort(Seq(ary), Some("a"), rt).items);
  }

  /** The only ordering of the rows `a: 3` and `b: 1` ascending in "a" (missing reads as null) puts `b: 1` first. */
  lemma PinTwoRows(r: seq<Value>)
    requires multiset(r) == multiset{Row("a", 3), Row("b", 1)}
    requires forall i, j :: 0 <= i < j < |r| ==> NullsFirst(Lookup(r[i], "a"), Lookup(r[j], "a"))
    ensures r == [Row("b", 1), Row("a", 3)]
  {
  }

  /**
    When the first dictionary has the key, a list of dictionaries is sorted
    by key even though a later one lacks it: that one reads as null and
    moves to the front, so the original order is not kept.
   */
  lemma SortMixedDictsExample(rt: Runtime)
    requires rt.flatten(Seq([Row("a", 3), Row("b", 1)])) == [Row("a", 3), Row("b", 1)]
    requires forall x, y :: rt.le(x, y) == NullsFirst(x, y)
    ensures Sort(Seq([Row("a", 3), Row("b", 1)]), Some("a"), rt) == Seq([Row("b", 1), Row("a", 3)])
  {
    var ary := [Row("a", 3), Row("b", 1)];
    NullsFirstIsTotalPreorder(rt);
    assert Keyed(ary, "a") by { assert ary[0].entries[0].key == "a"; }
    SortByKeyNullsFirst(Seq(ary), "a", rt);
    PinTwoRows(Sort(Seq(ary), Some("a"), rt).items);
  }

  /**
    Projects every element on the property: `dict[property]` when dictionary
    access applies, the member's value when member access applies, the
    element itself otherwise. Order and length are kept.
   */
  function Map(input: Value, property: string, rt: Runtime): (r: Value)
    requires IsEnumerable(input)
    ensures r.Seq? && |r.items| == |Enumerate(input)|
    ensures Keyed(Enumerate(input), property) ==>
      forall i :: 0 <= i < |r.items| ==> r.items[i] == Lookup(Enumerate(input)[i], property)
    ensures !Keyed(Enumerate(input), property) && AllRespond(Enumerate(input), property, rt) ==>
      forall i :: 0 <= i < |r.items| ==> r.items[i] == rt.send(Enumerate(input)[i], property)
    ensures !Keyed(Enumerate(input), property) && !AllRespond(Enumerate(input), property, rt) ==>
      r.items == Enumerate(input)
  {
    var ary := Enumerate(input);
    if |ary| == 0 then Seq(ary)
    else
      var a := ChooseAccess(ary, property, rt);
      if a == AsIs then Seq(ary)
      else Seq(seq(|ary|, i requires 0 <= i < |ary| => Read(a, property, rt, ary[i])))
  }

  /**
    When the first dictionary has the key, a later dictionary without it is
    still read through the indexer and maps to null.
   */
  lemma MapMissingKeyIsNull(input: Value, property: string, rt: Runtime, i: nat)
    requires IsEnumerable(input) && Keyed(Enumerate(input), property)
    requires i < |Enumerate(input)| && !HasKey(Enumerate(input)[i], property)
    ensures Map(input, property, rt).items[i] == Null
  {
  }

  /** `map` of two dictionaries on a key they hold gives their values; on a key nobody has, the elements. */
  lemma MapExamples(rt: Runtime)
    ensures Map(Seq([Dict([Entry("a", Int(1))]), Dict([Entry("a", Int(2))])]), "a", rt) == Seq([Int(1), Int(2)])
    ensures !rt.respondTo(Dict([Entry("b", Int(1))]), "a") ==>
      Map(Seq([Dict([Entry("b", Int(1))])]), "a", rt) == Seq([Dict([Entry("b", Int(1))])])
  {
    var d1 := Dict([Entry("a", Int(1))]);
    var d2 := Dict([Entry("a", Int(2))]);
    assert HasKey(d1, "a") by { assert d1.entries[0].key == "a"; }
    assert Keyed([d1, d2], "a");
  }

  // ---------------------------------------------------------------------
  // remove, append, prepend
  // ---------------------------------------------------------------------

  /**
    Deletes every non-overlapping occurrence of `pattern`, scanning left to
    right: the text before the leftmost occurrence is kept and the removal
    resumes right after it. Null and all-white-space strings pass through
    untouched, whatever the pattern.
   */
  function Remove(input: Option<string>, pattern: string): (r: Option<string>)
    requires input.Some? && !AllWhiteSpace(input.value) ==> |pattern| > 0
    ensures input.None? || AllWhiteSpace(input.value) ==> r == input
    ensures input.Some? && !AllWhiteSpace(input.value) ==>
      && r.Some?
      && |r.value| <= |input.value|
      && (r == input <==> !Contains(input.value, pattern))
      && forall i :: FirstOccursAt(input.value, pattern, i) ==>
           r.value == input.value[..i] + ReplaceAll(input.value[i + |pattern|..], pattern, "")
  {
    if input.None? || AllWhiteSpace(input.value) then input
    else
      RemoveAllChangesIff(input.value, pattern);
      RemoveAllShrinks(input.value, pattern);
      assert forall i :: FirstOccursAt(input.value, pattern, i) ==>
        ReplaceAll(input.value, pattern, "") == input.value[..i] + ReplaceAll(input.value[i + |pattern|..], pattern, "") by {
        forall i | FirstOccursAt(input.value, pattern, i)
          ensures ReplaceAll(input.value, pattern, "") == input.value[..i] + ReplaceAll(input.value[i + |pattern|..], pattern, "")
        {
          ReplaceAllFirst(input.value, pattern, "", i);
        }
      }
      Some(ReplaceAll(input.value, pattern, ""))
  }

  /** `s` followed by `suffix`; a null `s` stays null and a null `suffix` adds nothing. */
  function Append(input: Option<string>, suffix: Option<string>): (r: Option<string>)
    ensures input.None? <==> r.None?
    ensures input.Some? ==>
      && |r.value| == |input.value| + |OrEmpty(suffix)|
      && r.value[..|input.value|] == input.value
      && r.value[|input.value|..] == OrEmpty(suffix)
  {
    if input.None? then input else Some(input.value + OrEmpty(suffix))
  }

  /** `prefix` followed by `s`; a null `s` stays null and a null `prefix` adds nothing. */
  function Prepend(input: Option<string>, prefix: Option<string>): (r: Option<string>)
    ensures input.None? <==> r.None?
    ensures input.Some? ==>
      && |r.value| == |OrEmpty(prefix)| + |input.value|
      && r.value[..|OrEmpty(prefix)|] == OrEmpty(prefix)
      && r.value[|OrEmpty(prefix)|..] == input.value
  {
    if input.None? then input else Some(OrEmpty(prefix) + input.value)
  }

  /** Appending and prepending touch opposite ends, so their order does not matter. */
  lemma AppendPrependCommute(input: Option<string>, prefix: Option<string>, suffix: Option<string>)
    ensures Prepend(Append(input, suffix), prefix) == Append(Prepend(input, prefix), suffix)
  {
    if input.Some? {
      assert OrEmpty(prefix) + (input.value + OrEmpty(suffix)) == (OrEmpty(prefix) + input.value) + OrEmpty(suffix);
    }
  }

  // ---------------------------------------------------------------------
  // first and last
  // ---------------------------------------------------------------------

  /** The first element; null for a null or empty input. */
  function First(input: Value): (r: Value)
    requires input.Null? || IsEnumerable(input)
    ensures input.Null? ==> r == Null
    ensures IsEnumerable(input) && Size(input) == 0 ==> r == Null
    ensures IsEnumerable(input) && Size(input) > 0 ==> r == Enumerate(input)[0]
  {
    if input.Null? then Null
    else
      var elems := Enumerate(input);
      if |elems| == 0 then Null else elems[0]
  }

  /** The last element; null for a null or empty input. */
  function Last(input: Value): (r: Value)
    requires input.Null? || IsEnumerable(input)
    ensures input.Null? ==> r == Null
    ensures IsEnumerable(input) && Size(input) == 0 ==> r == Null
    ensures IsEnumerable(input) && Size(input) > 0 ==> r == Enumerate(input)[Size(input) - 1]
  {
    if input.Null? then Null
    else
      var elems := Enumerate(input);
      if |elems| == 0 then Null else elems[|elems| - 1]
  }

  /** After a natural-order sort the first element is the least of the flattened input and the last the greatest. */
  lemma SortFirstLastBound(input: Value, rt: Runtime, v: Value)
    requires TotalPreorder(rt.le)
    requires v in Flattened(input, rt)
    ensures rt.le(First(Sort(input, None, rt)), v)
    ensures rt.le(v, Last(Sort(input, None, rt)))
  {
    var sorted := Sort(input, None, rt);
    var r := sorted.items;
    assert v in r by {
      assert v in multiset(Flattened(input, rt));
      assert v in multiset(r);
    }
    SortedEnds(r, rt.le, v);
    FirstLastOfList(sorted);
  }

  /** `first` and `last` of a non-empty list are its end elements. */
  lemma FirstLastOfList(xs: Value)
    requires xs.Seq? && |xs.items| > 0
    ensures First(xs) == xs.items[0] && Last(xs) == xs.items[|xs.items| - 1]
  {
  }

  /** In a list ordered by a total preorder, the first element is below and the last above every element. */
  lemma SortedEnds(r: seq<Value>, le: (Value, Value) -> bool, v: Value)
    requires TotalPreorder(le)
    requires forall i, j :: 0 <= i < j < |r| ==> le(r[i], r[j])
    requires v in r
    ensures le(r[0], v) && le(v, r[|r| - 1])
  {
  }

  // ---------------------------------------------------------------------
  // plus, minus, times, divided_by
  // ---------------------------------------------------------------------

  /**
    The compiled arithmetic: null when either operand is null, otherwise
    whatever the runtime's expression for `op` yields.
   */
  function DoMathsOperation(input: Value, operand: Value, op: Op, rt: Runtime): (r: Value)
    ensures input.Null? || operand.Null? ==> r == Null
    ensures !input.Null? && !operand.Null? ==> r == rt.arith(op, input, operand)
  {
    if input.Null? || operand.Null? then Null else rt.arith(op, input, operand)
  }

  /** String concatenation when the input is a string, arithmetic addition otherwise. */
  function Plus(input: Value, operand: Value, rt: Runtime): (r: Value)
    ensures input.Str? ==> r == Str(input.s + ToText(rt, operand))
    ensures !input.Str? ==> r == DoMathsOperation(input, operand, Add, rt)
  {
    if input.Str? then Str(input.s + ToText(rt, operand)) else DoMathsOperation(input, operand, Add, rt)
  }

  /** Arithmetic subtraction: null when either side is null. */
  function Minus(input: Value, operand: Value, rt: Runtime): (r: Value)
    ensures input.Null? || operand.Null? ==> r == Null
    ensures !input.Null? && !operand.Null? ==> r == rt.arith(Subtract, input, operand)
  {
    DoMathsOperation(input, operand, Subtract, rt)
  }

  /** A list of `n` copies of a string times an int `n`, arithmetic multiplication otherwise. */
  function Times(input: Value, operand: Value, rt: Runtime): (r: Value)
    requires input.Str? && operand.Int? ==> operand.i >= 0
    ensures input.Str? && operand.Int? ==>
      r.Seq? && |r.items| == operand.i && forall k :: 0 <= k < |r.items| ==> r.items[k] == input
    ensures !(input.Str? && operand.Int?) ==> r == DoMathsOperation(input, operand, Multiply, rt)
  {
    if input.Str? && operand.Int? then Seq(seq(operand.i, _ => input))
    else DoMathsOperation(input, operand, Multiply, rt)
  }

  /** Arithmetic division: null when either side is null. */
  function DividedBy(input: Value, operand: Value, rt: Runtime): (r: Value)
    ensures input.Null? || operand.Null? ==> r == Null
    ensures !input.Null? && !operand.Null? ==> r == rt.arith(Divide, input, operand)
  {
    DoMathsOperation(input, operand, Divide, rt)
  }

  /** A null on either side of an arithmetic filter makes the result null, except for `plus` on a string. */
  lemma ArithmeticNullPropagates(x: Value, y: Value, rt: Runtime)
    ensures Plus(Null, y, rt) == Null
    ensures !x.Str? ==> Plus(x, Null, rt) == Null
    ensures Minus(Null, y, rt) == Null && Minus(x, Null, rt) == Null
    ensures Times(Null, y, rt) == Null
    ensures Times(x, Null, rt) == Null
    ensures DividedBy(Null, y, rt) == Null && DividedBy(x, Null, rt) == Null
  {
  }

  /** `plus` on strings concatenates the operand's text; a null operand adds nothing. */
  lemma PlusStringExamples(rt: Runtime, s: string)
    ensures Plus(Str("foo"), Str("bar"), rt) == Str("foobar")
    ensures Plus(Str("foo"), Int(1), rt) == Str("foo1")
    ensures Plus(Str(s), Null, rt) == Str(s)
  {
  }

  /** `n` copies of `s` written one after another. */
  function Repeat(s: string, n: nat): (r: string)
    ensures |r| == n * |s|
  {
    if n == 0 then "" else s + Repeat(s, n - 1)
  }

  /** Joining the copies `times` produces, with no glue, spells out the repetition. */
  lemma {:induction false} TimesJoinRepeats(s: string, n: nat, rt: Runtime)
    ensures Join(Times(Str(s), Int(n), rt), None, rt) == Some(Repeat(s, n))
  {
    var ts := Texts(rt, Times(Str(s), Int(n), rt).items);
    assert forall k :: 0 <= k < |ts| ==> ts[k] == s;
    JoinCopies(s, ts);
  }

  /** Joining copies of `s` with no glue gives `s` repeated. */
  lemma {:induction false} JoinCopies(s: string, ts: seq<string>)
    requires forall k :: 0 <= k < |ts| ==> ts[k] == s
    ensures JoinWith("", ts) == Repeat(s, |ts|)
  {
    if |ts| > 1 {
      JoinCopies(s, ts[1..]);
    }
  }
}

=== FILE: ordering.dfy ===
/**
  Sorting a list by a key under an abstract comparer. `List.Sort` is an
  unstable introsort; all that is modelled of it is that it yields a
  permutation ordered by the comparer, which any correct sort does, so an
  insertion sort stands in for it.
 */
module Ordering {

  /** `le` is a total preorder: any two keys compare, and comparison chains. */
  ghost predicate TotalPreorder<K(!new)>(le: (K, K) -> bool) {
    && (forall x, y :: le(x, y) || le(y, x))
    && (forall x, y, z :: le(x, y) && le(y, z) ==> le(x, z))
  }

  /** Every element's key is `le` every later element's key. */
  ghost predicate SortedOn<T, K>(xs: seq<T>, key: T -> K, le: (K, K) -> bool) {
    forall i, j :: 0 <= i < j < |xs| ==> le(key(xs[i]), key(xs[j]))
  }

  /** Inserts `x` in front of the first element whose key it does not exceed. */
  function Insert<T, K(!new)>(x: T, xs: seq<T>, key: T -> K, le: (K, K) -> bool): (r: seq<T>)
    ensures multiset(r) == multiset(xs) + multiset{x}
    ensures TotalPreorder(le) && SortedOn(xs, key, le) ==> SortedOn(r, key, le)
  {
    if |xs| == 0 then [x]
    else if le(key(x), key(xs[0])) then [x] + xs
    else
      var rest := Insert(x, xs[1..], key, le);
      assert xs == [xs[0]] + xs[1..];
      assert TotalPreorder(le) && SortedOn(xs, key, le) ==> SortedOn([xs[0]] + rest, key, le) by {
        if TotalPreorder(le) && SortedOn(xs, key, le) {
          assert le(key(xs[0]), key(x));
          forall j | 0 <= j < |rest| ensures le(key(xs[0]), key(rest[j])) {
            assert rest[j] in multiset(rest);
            if rest[j] != x {
              assert rest[j] in multiset(xs[1..]);
              var m :| 0 <= m < |xs[1..]| && xs[1..][m] == rest[j];
              assert xs[m + 1] == rest[j];
            }
          }
        }
      }
      [xs[0]] + rest
  }

  /** Sorts `xs` by `key` under `le`: a permutation of `xs` in `le` order of keys. */
  function InsertionSort<T, K(!new)>(xs: seq<T>, key: T -> K, le: (K, K) -> bool): (r: seq<T>)
    ensures multiset(r) == multiset(xs)
    ensures TotalPreorder(le) ==> SortedOn(r, key, le)
  {
    if |xs| == 0 then []
    else
      assert xs == [xs[0]] + xs[1..];
      Insert(xs[0], InsertionSort(xs[1..], key, le), key, le)
  }
}

=== FILE: text.dfy ===
/**
  String operations of the .NET base library that the filters are built on:
  `String.Split(char)`, `String.Join`, ordinal `String.Replace`, and
  `Char.IsWhiteSpace`.
 */
module Text {

  /** Number of occurrences of `c` in `s`. */
  function Occurrences(s: string, c: char): nat
  {
    if |s| == 0 then 0 else (if s[0] == c then 1 else 0) + Occurrences(s[1..], c)
  }

  /**
    `s.Split(sep)`: the maximal runs between separators, empty runs kept.
    There is always one more field than there are separators.
   */
  function Split(s: string, sep: char): (parts: seq<string>)
    ensures |parts| == Occurrences(s, sep) + 1
    ensures forall i :: 0 <= i < |parts| ==> sep !in parts[i]
  {
    if |s| == 0 then [""]
    else
      var rest := Split(s[1..], sep);
      if s[0] == sep then [""] + rest
      else [[s[0]] + rest[0]] + rest[1..]
  }

  /** `String.Join(glue, parts)`: the parts with `glue` between neighbours. */
  function JoinWith(glue: string, parts: seq<string>): string
  {
    if |parts| == 0 then ""
    else if |parts| == 1 then parts[0]
    else parts[0] + glue + JoinWith(glue, parts[1..])
  }

  /** Total length of a sequence of strings. */
  function TotalLength(parts: seq<string>): nat
  {
    if |parts| == 0 then 0 else |parts[0]| + TotalLength(parts[1..])
  }

  /**
    The index of the `n`-th occurrence (counting from 1) of `sep` in `s`:
    the position holds `sep` and exactly `n - 1` separators precede it.
   */
  function SepIndex(s: string, sep: char, n: nat): (k: nat)
    requires 1 <= n <= Occurrences(s, sep)
    ensures k < |s| && s[k] == sep
    ensures Occurrences(s[..k], sep) == n - 1
  {
    if s[0] == sep && n == 1 then 0
    else
      var m := if s[0] == sep then n - 1 else n;
      var k' := SepIndex(s[1..], sep, m);
      assert s[..1 + k'][1..] == s[1..][..k'];
      1 + k'
  }

  /** `Char.IsWhiteSpace`: the Unicode space, line and paragraph separators plus the controls 9-13 and 0x85. */
  predicate IsWhiteSpace(c: char) {
    var n := c as int;
    || n == 0x20 || (0x09 <= n <= 0x0D) || n == 0x85 || n == 0xA0
    || n == 0x1680 || (0x2000 <= n <= 0x200A) || n == 0x2028 || n == 0x2029
    || n == 0x202F || n == 0x205F || n == 0x3000
  }

  /** `String.IsNullOrWhiteSpace` for a non-null string: every character is white space (so also the empty string). */
  predicate AllWhiteSpace(s: string) {
    forall i :: 0 <= i < |s| ==> IsWhiteSpace(s[i])
  }

  /** `pat` occurs in `s` starting at index `i`. */
  predicate OccursAt(s: string, pat: string, i: int) {
    0 <= i && i + |pat| <= |s| && s[i..i + |pat|] == pat
  }

  /** `pat` occurs somewhere in `s`. */
  predicate Contains(s: string, pat: string) {
    exists i :: 0 <= i <= |s| - |pat| && OccursAt(s, pat, i)
  }

  /**
    Ordinal `s.Replace(pat, rep)`: scanning left to right, every
    non-overlapping occurrence of `pat` is replaced by `rep`.
   */
  function ReplaceAll(s: string, pat: string, rep: string): string
    requires |pat| > 0
    decreases |s|
  {
    if |s| < |pat| then s
    else if s[..|pat|] == pat then rep + ReplaceAll(s[|pat|..], pat, rep)
    else [s[0]] + ReplaceAll(s[1..], pat, rep)
  }

  // ---------------------------------------------------------------------
  // Split and Join are inverse to each other
  // ---------------------------------------------------------------------

  /** Gluing a prefix onto the first part of a join glues it onto the whole join. */
  lemma {:induction false} JoinWithPrefix(glue: string, x: string, parts: seq<string>)
    requires |parts| >= 1
    ensures JoinWith(glue, [x + parts[0]] + parts[1..]) == x + JoinWith(glue, parts)
  {
  }

  /** Joining the fields of a split with the separator gives back the string. */
  lemma {:induction false} JoinSplit(s: string, sep: char)
    ensures JoinWith([sep], Split(s, sep)) == s
  {
    if |s| > 0 {
      var rest := Split(s[1..], sep);
      JoinSplit(s[1..], sep);
      if s[0] == sep {
        var q := [""] + rest;
        assert q[1..] == rest;
        assert JoinWith([sep], q) == "" + [sep] + JoinWith([sep], rest);
        assert s == [s[0]] + s[1..];
      } else {
        JoinWithPrefix([sep], [s[0]], rest);
        assert s == [s[0]] + s[1..];
      }
    }
  }

  /** A string without the separator is a single field. */
  lemma {:induction false} SplitNoSep(a: string, sep: char)
    requires sep !in a
    ensures Split(a, sep) == [a]
  {
    if |a| > 0 {
      assert sep !in a[1..] by {
        forall i | 0 <= i < |a[1..]| ensures a[1..][i] != sep {
          assert a[1..][i] == a[i + 1];
        }
      }
      SplitNoSep(a[1..], sep);
      assert [a[0]] + a[1..] == a;
    }
  }

  /** A field `a` followed by the separator splits off as the first field. */
  lemma {:induction false} SplitFieldThenSep(a: string, sep: char, t: string)
    requires sep !in a
    ensures Split(a + [sep] + t, sep) == [a] + Split(t, sep)
    decreases |a|
  {
    var s := a + [sep] + t;
    if |a| == 0 {
      assert s[1..] == t;
    } else {
      assert s[1..] == a[1..] + [sep] + t;
      assert sep !in a[1..] by {
        forall i | 0 <= i < |a[1..]| ensures a[1..][i] != sep {
          assert a[1..][i] == a[i + 1];
        }
      }
      SplitFieldThenSep(a[1..], sep, t);
      assert [a[0]] + a[1..] == a;
    }
  }

  /** Splitting a join of separator-free fields gives back the fields. */
  lemma {:induction false} SplitJoin(parts: seq<string>, sep: char)
    requires |parts| >= 1
    requires forall i :: 0 <= i < |parts| ==> sep !in parts[i]
    ensures Split(JoinWith([sep], parts), sep) == parts
  {
    if |parts| == 1 {
      SplitNoSep(parts[0], sep);
    } else {
      SplitJoin(parts[1..], sep);
      SplitFieldThenSep(parts[0], sep, JoinWith([sep], parts[1..]));
      assert [parts[0]] + parts[1..] == parts;
    }
  }

  /**
    The first `n` fields of a split, rejoined, are the string up to (not
    including) its `n`-th separator.
   */
  lemma {:induction false} JoinTakeSplit(s: string, sep: char, n: nat)
    requires 1 <= n <= Occurrences(s, sep)
    ensures JoinWith([sep], Split(s, sep)[..n]) == s[..SepIndex(s, sep, n)]
  {
    var rest := Split(s[1..], sep);
    if s[0] == sep {
      if n > 1 {
        var parts := [""] + rest;
        JoinTakeSplit(s[1..], sep, n - 1);
        assert parts[..n][1..] == rest[..n - 1];
        assert JoinWith([sep], parts[..n]) == [sep] + JoinWith([sep], rest[..n - 1]);
        PrefixCons(s, SepIndex(s[1..], sep, n - 1));
      }
    } else {
      JoinTakeSplit(s[1..], sep, n);
      var parts := [[s[0]] + rest[0]] + rest[1..];
      assert parts[..n] == [[s[0]] + rest[..n][0]] + rest[..n][1..];
      JoinWithPrefix([sep], [s[0]], rest[..n]);
      PrefixCons(s, SepIndex(s[1..], sep, n));
    }
  }

  /** The first `k + 1` characters are the first one followed by the first `k` of the rest. */
  lemma PrefixCons(s: string, k: nat)
    requires k < |s|
    ensures s[..k + 1] == [s[0]] + s[1..][..k]
  {
  }

  /** The length of a join: all the parts plus one glue between each neighbouring pair. */
  lemma {:induction false} JoinWithLength(glue: string, parts: seq<string>)
    requires |parts| >= 1
    ensures |JoinWith(glue, parts)| == TotalLength(parts) + (|parts| - 1) * |glue|
  {
    if |parts| > 1 {
      JoinWithLength(glue, parts[1..]);
    }
  }

  /** Where the `k`-th part of a join starts: every earlier part, each followed by one glue. */
  function PartStart(glue: string, parts: seq<string>, k: nat): nat
    requires k <= |parts|
  {
    TotalLength(parts[..k]) + k * |glue|
  }

  /** Past the first part and its glue, the parts start where they start in the join of the rest. */
  lemma PartStartStep(glue: string, parts: seq<string>, k: nat)
    requires 1 <= k <= |parts|
    ensures PartStart(glue, parts, k) == |parts[0]| + |glue| + PartStart(glue, parts[1..], k - 1)
  {
    assert parts[..k][1..] == parts[1..][..k - 1];
  }

  /** A join of two or more parts is the first part, one glue, and the join of the rest. */
  lemma JoinWithUnfold(glue: string, parts: seq<string>)
    requires |parts| > 1
    ensures JoinWith(glue, parts) == (parts[0] + glue) + JoinWith(glue, parts[1..])
  {
  }

  /** Slices of the second half of `x + y` are slices of `y`, shifted by `|x|`. */
  lemma ShiftSlices(x: string, y: string, a: nat, m: nat, g: nat)
    requires a + m <= |y|
    ensures (x + y)[|x| + a..|x| + a + m] == y[a..a + m]
    ensures a + m + g <= |y| ==> (x + y)[|x| + a + m..|x| + a + m + g] == y[a + m..a + m + g]
  {
  }

  /** Part `k` of a join sits at `PartStart(k)` and, unless it is the last, is followed by one glue. */
  lemma {:induction false} JoinWithPartAt(glue: string, parts: seq<string>, k: nat)
    requires k < |parts|
    ensures PartStart(glue, parts, k) + |parts[k]| <= |JoinWith(glue, parts)|
    ensures JoinWith(glue, parts)[PartStart(glue, parts, k)..PartStart(glue, parts, k) + |parts[k]|] == parts[k]
    ensures k < |parts| - 1 ==>
      && PartStart(glue, parts, k) + |parts[k]| + |glue| <= |JoinWith(glue, parts)|
      && JoinWith(glue, parts)[PartStart(glue, parts, k) + |parts[k]|..PartStart(glue, parts, k) + |parts[k]| + |glue|] == glue
    decreases k
  {
    assert PartStart(glue, parts, 0) == 0 by { assert parts[..0] == []; }
    if |parts| > 1 {
      JoinWithUnfold(glue, parts);
    }
    if k > 0 {
      var rest := parts[1..];
      JoinWithPartAt(glue, rest, k - 1);
      PartStartStep(glue, parts, k);
      assert rest[k - 1] == parts[k];
      ShiftSlices(parts[0] + glue, JoinWith(glue, rest), PartStart(glue, rest, k - 1), |parts[k]|, |glue|);
    }
  }

  /**
    `j` is `parts` laid out with `glue` between them: every part `k` sits at
    `PartStart(k)`, and exactly one glue follows each part but the last.
   */
  predicate LaidOut(j: string, glue: string, parts: seq<string>) {
    && (forall k :: 0 <= k < |parts| ==>
          && PartStart(glue, parts, k) + |parts[k]| <= |j|
          && j[PartStart(glue, parts, k)..PartStart(glue, parts, k) + |parts[k]|] == parts[k])
    && (forall k :: 0 <= k < |parts| - 1 ==>
          && PartStart(glue, parts, k) + |parts[k]| + |glue| <= |j|
          && j[PartStart(glue, parts, k) + |parts[k]|..PartStart(glue, parts, k) + |parts[k]| + |glue|] == glue)
  }

  /** A join lays its parts out with one glue between neighbours. */
  lemma JoinWithParts(glue: string, parts: seq<string>)
    ensures LaidOut(JoinWith(glue, parts), glue, parts)
  {
    forall k | 0 <= k < |parts|
      ensures PartStart(glue, parts, k) + |parts[k]| <= |JoinWith(glue, parts)|
      ensures JoinWith(glue, parts)[PartStart(glue, parts, k)..PartStart(glue, parts, k) + |parts[k]|] == parts[k]
      ensures k < |parts| - 1 ==>
        && PartStart(glue, parts, k) + |parts[k]| + |glue| <= |JoinWith(glue, parts)|
        && JoinWith(glue, parts)[PartStart(glue, parts, k) + |parts[k]|..PartStart(glue, parts, k) + |parts[k]| + |glue|] == glue
    {
      JoinWithPartAt(glue, parts, k);
    }
  }

  // ---------------------------------------------------------------------
  // Replace-all with the empty string
  // ---------------------------------------------------------------------

  /** A string in which `pat` does not occur is left as it is. */
  lemma {:induction false} ReplaceAllAbsent(s: string, pat: string, rep: string)
    requires |pat| > 0
    requires !Contains(s, pat)
    ensures ReplaceAll(s, pat, rep) == s
    decreases |s|
  {
    if |s| >= |pat| {
      assert !OccursAt(s, pat, 0);
      assert !Contains(s[1..], pat) by {
        forall i | OccursAt(s[1..], pat, i) ensures false {
          assert s[1..][i..i + |pat|] == s[i + 1..i + 1 + |pat|];
          assert OccursAt(s, pat, i + 1);
        }
      }
      ReplaceAllAbsent(s[1..], pat, rep);
      assert [s[0]] + s[1..] == s;
    }
  }

  /** Removing occurrences never makes a string longer. */
  lemma {:induction false} RemoveAllShrinks(s: string, pat: string)
    requires |pat| > 0
    ensures |ReplaceAll(s, pat, "")| <= |s|
    decreases |s|
  {
    if |s| >= |pat| {
      if s[..|pat|] == pat {
        RemoveAllShrinks(s[|pat|..], pat);
      } else {
        RemoveAllShrinks(s[1..], pat);
      }
    }
  }

  /** When `pat` occurs, at least one occurrence is removed, so the result is shorter. */
  lemma {:induction false} RemoveAllPresent(s: string, pat: string)
    requires |pat| > 0
    requires Contains(s, pat)
    ensures |ReplaceAll(s, pat, "")| < |s|
    decreases |s|
  {
    var i :| 0 <= i <= |s| - |pat| && OccursAt(s, pat, i);
    assert 0 <= i && i + |pat| <= |s| && s[i..i + |pat|] == pat;
    if s[..|pat|] == pat {
      RemoveAllShrinks(s[|pat|..], pat);
    } else {
      assert i != 0;
      assert OccursAt(s[1..], pat, i - 1) by {
        assert s[1..][i - 1..i - 1 + |pat|] == s[i..i + |pat|];
      }
      RemoveAllPresent(s[1..], pat);
    }
  }

  /** `pat` occurs nowhere before index `i`. */
  predicate NoneBefore(s: string, pat: string, i: int) {
    forall j :: 0 <= j < i ==> !OccursAt(s, pat, j)
  }

  /** `pat` occurs at `i` and nowhere before it. */
  predicate FirstOccursAt(s: string, pat: string, i: int) {
    OccursAt(s, pat, i) && NoneBefore(s, pat, i)
  }

  /**
    Everything before the leftmost occurrence is kept, that occurrence is
    replaced, and the scan resumes right after it.
   */
  lemma ReplaceAllFirst(s: string, pat: string, rep: string, i: nat)
    requires |pat| > 0
    requires FirstOccursAt(s, pat, i)
    ensures ReplaceAll(s, pat, rep) == s[..i] + (rep + ReplaceAll(s[i + |pat|..], pat, rep))
  {
    ReplaceAllKeeps(s, pat, rep, i);
    assert OccursAt(s[i..], pat, 0) by {
      assert s[i..][0..|pat|] == s[i..i + |pat|];
    }
    ReplaceAllHit(s[i..], pat, rep);
    assert s[i..][|pat|..] == s[i + |pat|..];
  }

  /** A prefix in which no occurrence starts is copied unchanged. */
  lemma {:induction false} ReplaceAllKeeps(s: string, pat: string, rep: string, i: nat)
    requires |pat| > 0 && i + |pat| <= |s|
    requires NoneBefore(s, pat, i)
    ensures ReplaceAll(s, pat, rep) == s[..i] + ReplaceAll(s[i..], pat, rep)
    decreases i
  {
    if i > 0 {
      assert !OccursAt(s, pat, 0);
      ReplaceAllSkip(s, pat, rep);
      assert NoneBefore(s[1..], pat, i - 1) by {
        forall j | 0 <= j < i - 1 ensures !OccursAt(s[1..], pat, j) {
          assert !OccursAt(s, pat, j + 1);
          assert s[1..][j..j + |pat|] == s[j + 1..j + 1 + |pat|];
        }
      }
      ReplaceAllKeeps(s[1..], pat, rep, i - 1);
      DropOneThenMore(s, i - 1);
      KeepFirst(s, i, ReplaceAll(s, pat, rep), ReplaceAll(s[1..], pat, rep), ReplaceAll(s[i..], pat, rep));
    }
  }

  /** Dropping one character and then `n` more drops `n + 1`. */
  lemma DropOneThenMore(s: string, n: nat)
    requires n + 1 <= |s|
    ensures s[1..][n..] == s[n + 1..]
  {
  }

  /** A string made of `s[0]` and then `s[1..i]` and `rest` is `s[..i]` and then `rest`. */
  lemma KeepFirst(s: string, i: nat, whole: string, tail: string, rest: string)
    requires 1 <= i <= |s|
    requires whole == [s[0]] + tail
    requires tail == s[1..][..i - 1] + rest
    ensures whole == s[..i] + rest
  {
    assert [s[0]] + s[1..][..i - 1] == s[..i];
  }

  /** Where `pat` occurs at the front, it is replaced and the scan resumes after it. */
  lemma ReplaceAllHit(s: string, pat: string, rep: string)
    requires |pat| > 0 && OccursAt(s, pat, 0)
    ensures ReplaceAll(s, pat, rep) == rep + ReplaceAll(s[|pat|..], pat, rep)
  {
    assert s[..|pat|] == s[0..|pat|];
  }

  /** Where `pat` does not occur at the front, the first character is kept and the scan moves on. */
  lemma ReplaceAllSkip(s: string, pat: string, rep: string)
    requires |pat| > 0 && |s| >= |pat| && !OccursAt(s, pat, 0)
    ensures ReplaceAll(s, pat, rep) == [s[0]] + ReplaceAll(s[1..], pat, rep)
  {
    assert s[..|pat|] == s[0..|pat|];
  }

  /** Removing all occurrences of `pat` changes `s` exactly when `pat` occurs in `s`. */
  lemma RemoveAllChangesIff(s: string, pat: string)
    requires |pat| > 0
    ensures ReplaceAll(s, pat, "") == s <==> !Contains(s, pat)
  {
    if Contains(s, pat) {
      RemoveAllPresent(s, pat);
    } else {
      ReplaceAllAbsent(s, pat, "");
    }
  }
}

=== FILE: values.dfy ===
/**
  The loosely typed values that flow through DotLiquid's standard filters,
  and the parts of the .NET runtime the filters consult but this model does
  not define (duck-typed member access, flattening, the default comparer,
  the expression-tree arithmetic and `ToString` of arbitrary objects).
 */
module Values {

  /** A reference that may be null: `None` is the C# `null`. */
  datatype Option<+T> = None | Some(value: T)

  /** What a call ends with when the .NET code throws instead of returning. */
  datatype Result<+T> = Ok(value: T) | ArgumentOutOfRange

  /** One key/value slot of a dictionary. */
  datatype Entry = Entry(key: string, val: Value)

  /**
    A runtime value. `Char` and `Pair` exist because enumerating a string
    yields its characters and enumerating a dictionary yields its key/value
    pairs. `Dict` keeps its entries in enumeration order; a key is looked up
    at its first entry. `Obj` is any other object (a drop, a boxed number of
    another kind, ...): what it exposes is decided by the `Runtime`.
   */
  datatype Value =
    | Null
    | Char(c: char)
    | Str(s: string)
    | Int(i: int)
    | Seq(items: seq<Value>)
    | Dict(entries: seq<Entry>)
    | Pair(key: string, val: Value)
    | Obj(handle: nat)

  /** The four operators `DoMathsOperation` is called with. */
  datatype Op = Add | Subtract | Multiply | Divide

  /**
    The collaborators of the filters that are not part of this model, as
    uninterpreted functions: `RespondTo`/`Send` from the utility extensions,
    `Flatten`, `Comparer.Default` as a "less than or equal" test, `ToString`
    of objects that are not strings, characters or ints, and the result of
    the compiled arithmetic expression.
   */
  datatype Runtime = Runtime(
    respondTo: (Value, string) -> bool,
    send: (Value, string) -> Value,
    flatten: Value -> seq<Value>,
    le: (Value, Value) -> bool,
    show: Value -> string,
    arith: (Op, Value, Value) -> Value)

  /** `v is IEnumerable`: strings, lists and dictionaries. */
  predicate IsEnumerable(v: Value) {
    v.Str? || v.Seq? || v.Dict?
  }

  /** The elements `Cast<object>()` yields for an enumerable value. */
  function Enumerate(v: Value): (elems: seq<Value>)
    requires IsEnumerable(v)
    ensures v.Seq? ==> elems == v.items
    ensures v.Str? ==> |elems| == |v.s| && forall i :: 0 <= i < |v.s| ==> elems[i] == Char(v.s[i])
    ensures v.Dict? ==> |elems| == |v.entries|
    ensures v.Dict? ==> forall i :: 0 <= i < |v.entries| ==> elems[i] == Pair(v.entries[i].key, v.entries[i].val)
  {
    match v
    case Str(s) => seq(|s|, i requires 0 <= i < |s| => Char(s[i]))
    case Seq(items) => items
    case Dict(entries) => seq(|entries|, i requires 0 <= i < |entries| => Pair(entries[i].key, entries[i].val))
  }

  /** `IDictionary.Contains(key)`; false for anything that is not a dictionary. */
  predicate HasKey(v: Value, key: string) {
    v.Dict? && exists i :: 0 <= i < |v.entries| && v.entries[i].key == key
  }

  /** The `IDictionary` indexer: the value stored under `key`, or null when absent. */
  function Lookup(v: Value, key: string): (r: Value)
    ensures HasKey(v, key) ==> exists i :: 0 <= i < |v.entries| && v.entries[i].key == key && r == v.entries[i].val
    ensures !HasKey(v, key) ==> r == Null
  {
    if v.Dict? then Find(v.entries, key) else Null
  }

  /** The value of the first entry whose key is `key`, or null. */
  function Find(entries: seq<Entry>, key: string): (r: Value)
    ensures (exists i :: 0 <= i < |entries| && entries[i].key == key) ==>
              exists i :: 0 <= i < |entries| && entries[i].key == key && r == entries[i].val
    ensures (forall i :: 0 <= i < |entries| ==> entries[i].key != key) ==> r == Null
  {
    if |entries| == 0 then Null
    else if entries[0].key == key then entries[0].val
    else
      var r := Find(entries[1..], key);
      assert forall i :: 1 <= i < |entries| ==> entries[i] == entries[1..][i - 1];
      r
  }

  /** The decimal digit for `d`. */
  function DigitChar(d: nat): (c: char)
    requires d < 10
    ensures c as int - '0' as int == d
  {
    "0123456789"[d]
  }

  /** Every character of `t` is a decimal digit. */
  predicate AllDigits(t: string) {
    forall i :: 0 <= i < |t| ==> '0' <= t[i] <= '9'
  }

  /** The number a string of decimal digits denotes, most significant digit first. */
  function DigitsValue(t: string): nat
    requires AllDigits(t)
  {
    if |t| == 0 then 0 else DigitsValue(t[..|t| - 1]) * 10 + (t[|t| - 1] as int - '0' as int)
  }

  /** Decimal notation of a natural number: digits that denote `n`, without a leading zero. */
  function NatToString(n: nat): (t: string)
    ensures |t| >= 1
    ensures AllDigits(t) && DigitsValue(t) == n
    ensures |t| > 1 ==> t[0] != '0'
    decreases n
  {
    if n < 10 then [DigitChar(n)]
    else
      var p := NatToString(n / 10);
      var t := p + [DigitChar(n % 10)];
      assert t[..|t| - 1] == p;
      t
  }

  /** `int.ToString()`: a minus sign for negatives, then the decimal digits. */
  function IntToString(i: int): (t: string)
    ensures i >= 0 ==> |t| >= 1 && (|t| > 1 ==> t[0] != '0') && AllDigits(t) && DigitsValue(t) == i
    ensures i < 0 ==>
      && |t| >= 2 && t[0] == '-' && (|t| > 2 ==> t[1] != '0')
      && AllDigits(t[1..]) && DigitsValue(t[1..]) == -i
  {
    if i < 0 then
      var d := NatToString(-i);
      assert ("-" + d)[1..] == d;
      "-" + d
    else NatToString(i)
  }

  /**
    The text `string.Concat` and `string.Join` use for a value: nothing for
    null, the string itself, the character, the decimal form of an int, and
    the runtime's `ToString` for everything else.
   */
  function ToText(rt: Runtime, v: Value): (t: string)
    ensures v.Null? ==> t == ""
    ensures v.Char? ==> t == [v.c]
    ensures v.Str? ==> t == v.s
    ensures v.Int? && v.i >= 0 ==>
      |t| >= 1 && (|t| > 1 ==> t[0] != '0') && AllDigits(t) && DigitsValue(t) == v.i
    ensures v.Int? && v.i < 0 ==>
      && |t| >= 2 && t[0] == '-' && (|t| > 2 ==> t[1] != '0')
      && AllDigits(t[1..]) && DigitsValue(t[1..]) == -v.i
    ensures v.Obj? || v.Seq? || v.Dict? || v.Pair? ==> t == rt.show(v)
  {
    match v
    case Null => ""
    case Char(c) => [c]
    case Str(s) => s
    case Int(i) => IntToString(i)
    case _ => rt.show(v)
  }
}
